=== FILE: README.md ===
# L-Turtles in Dafny

A model of the two pieces of logic in `l-turtles.py`, the L-system fractal
renderer:

1. **The grammar expander** (`l_system`). An optional alphabet `V`, an axiom
   `w`, production rules `P` and a generation count `n` produce an
   instruction string. Before any rewriting, a non-empty alphabet must
   contain every rule key. After that there are `n` parallel rewrite passes.
   In each pass every symbol is replaced by its rule's word, or kept when it
   has no rule.
2. **The turtle interpreter** (the loop and post-processing of
   `run_turtle`). The instruction string is read left to right:
   - `F`/`G` draw forward;
   - `M`/`N` move forward without drawing;
   - `[`/`]` save and restore (position, heading);
   - `+`/`-` turn left or right by `angle`;
   - every other symbol does nothing.

   After every forward step the bounding box, which starts at the origin,
   is widened to take in the new position. At the end the box is squared
   into the viewport.

Modules:

- `Wrappers` (`wrappers.dfy`): `Option` for a Python argument that may be
  `None`. `Result` for an operation that may raise.
- `LSystem` (`lsystem.dfy`):
  - `Rewrite` is one generation and `Iterate` is `n` generations, both as
    functions.
  - `RewritePass` and `Expand` are the loops of `l_system`.
  - Lemmas give the algebra of expansion.
- `Viewport` (`viewport.dfy`): points and boxes, `UpdateBounds`
  (`update_bounds`) and `SquareViewport` (the final squaring).
- `Turtle` (`turtle.dfy`):
  - `Step` is one symbol and `Exec` folds `Step` over a string.
  - `Interpret` is the loop of `run_turtle`, proved equal to the fold.
  - Lemmas cover stack discipline, segment counts, headings and bounds.
- `Pipeline` (`pipeline.dfy`): `RunTurtle` runs the expansion, the
  interpretation and the viewport one after another.

Forward motion is the parameter `advance: (Point, heading, distance) -> Point`.
The drawing surface supplies it, so every property here holds whatever the
geometry of a step is. The step distance is `run_turtle`'s constant `dist = 1`.

Exceptions become `Result` failures:

- The alphabet `assert` becomes the expander's `ConfigurationError`.
- `positions.pop()` on an empty list becomes the interpreter's `EmptyStack`.
  It carries the state at the offending `]`, including every segment drawn
  before it.
- `RunTurtle` reports either one, wrapped as `ExpandFailed` or
  `InterpretFailed`.

Two behaviours follow the code exactly as written:

- No ceiling on generations or length is modelled, because the code has
  none.
- `n <= 0` runs zero passes, which is what `range(n)` does.

Apart from the abstractions listed under "Left out", headings are where the
model's values differ from the code's. They are kept unreduced; see "Left
out". Under "Left out" is also the zero-span viewport, which the drawing
surface rejects and the model returns.

## Model

| member | source | states |
|---|---|---|
| `LSystem.Rewrite` | l-turtles.py:18-19 | One generation with an empty rule map returns the word unchanged. Its full meaning is given by `RewriteSymbol` and `RewriteConcat`. |
| `LSystem.Iterate` | l-turtles.py:16-21 | Any number of generations with an empty rule map returns the axiom. Its algebra is given by `IterateFirst` and `IterateAdd`. |
| `LSystem.CheckAlphabet` | l-turtles.py:13-14 | The check passes exactly when the alphabet is absent, is empty, or contains every rule key. It stops at the first key outside the alphabet, as `all` does. |
| `LSystem.RewriteInert` | l-turtles.py:18-19 | One generation leaves a word with no rule symbols unchanged. |
| `LSystem.RewriteLength` | l-turtles.py:18-19 | When no rule erases its symbol, one generation never shortens the word. |
| `LSystem.IterateInert` | l-turtles.py:16-21 | Any number of generations keeps an axiom with no rule symbols as it is. |
| `LSystem.RewriteConcat` | l-turtles.py:18-19 | A pass distributes over concatenation. Text produced by a replacement is not rewritten again in the same pass. |
| `LSystem.RewriteSymbol` | l-turtles.py:18 | A single symbol becomes exactly its rule's word, or itself when it has no rule, even when that word contains rule symbols. |
| `LSystem.RewriteSnoc` | l-turtles.py:18-19 | Rewriting a prefix and then appending the next symbol's image equals rewriting the longer prefix. This is the left-to-right order of the comprehension. |
| `LSystem.IterateFirst` | l-turtles.py:17-19 | `n + 1` generations equal `n` generations of the once-rewritten axiom. |
| `LSystem.IterateAdd` | l-turtles.py:17-19 | `n` generations applied to the result of `m` generations equal `m + n` generations. |
| `LSystem.IterateConcat` | l-turtles.py:17-19 | Expanding a concatenated axiom equals concatenating the expansions of its parts, in every generation. |
| `LSystem.IterateLengthMonotone` | l-turtles.py:17-19 | When every replacement word is non-empty, a later generation is never shorter than an earlier one. |
| `LSystem.RewritePass` | l-turtles.py:18-19 | The per-symbol loop with its join computes exactly one parallel generation. |
| `LSystem.Expand` | l-turtles.py:3-21 | Fails exactly when the alphabet is present, non-empty and misses a rule key, and then it rewrites nothing. Otherwise it returns `Generations(n) = max(n, 0)` generations of the axiom, which is the axiom itself when `n <= 0`. |
| `LSystem.RightKochOneGeneration` | l-turtles.py:111-112 | One generation of the right Koch preset turns `F` into `F+F-F-F+F`. |
| `Viewport.UpdateBounds` | l-turtles.py:55-61 | The widened box encloses the old box and the new position. It is the smallest such box, and it is unchanged when the position was already inside. |
| `Viewport.SquareViewport` | l-turtles.py:93-104 | The viewport is square and its side is the longer of width and height. It encloses a well-formed box and keeps both centres. The longer axis is untouched. |
| `Turtle.Start` | l-turtles.py:47-64 | The turtle starts with heading `startdir`, an empty stack and nothing drawn. Its bounds contain the origin and the turtle, and they are the smallest bounds that do. |
| `Turtle.Forward` | l-turtles.py:66-74 | A forward step moves the turtle by `advance` over distance 1 along its heading, keeping heading and stack. It appends exactly one segment from the old to the new position with the given visibility. The new bounds are exactly `UpdateBounds` of the old bounds and the new position: they enclose the old ones and contain the new position. |
| `Turtle.Step` | l-turtles.py:65-90 | A symbol fails if and only if it is `]` met with an empty stack. A symbol that succeeds never shrinks the bounds. |
| `Turtle.StepFrame` | l-turtles.py:65-90 | Only `F G M N` draw and widen the bounds. Each advances the turtle by `advance`, sets the bounds to `UpdateBounds` of the old bounds and the new position, and adds one segment from the old to the new position, visible for `F G` only. `[` pushes the current position and heading. `]` on a non-empty stack restores the top frame's position and heading and pops it. Only moves and `]` change the position. Only `[ ]` change the stack. Only `+ - ]` change the heading. Every other symbol leaves the state as it is. |
| `Turtle.StepTracked` | l-turtles.py:55-84 | One step keeps the origin, the turtle, saved positions and every segment end inside the bounds. This includes `]`, whose restored position was inside when it was saved. |
| `Turtle.Exec` | l-turtles.py:65-90 | A successful run never shrinks the bounds. |
| `Turtle.ExecTracked` | l-turtles.py:50-90 | A successful run from a tracked state ends tracked: the origin, the turtle, every saved position and both ends of every segment lie inside the bounds. |
| `Turtle.ExecConcat` | l-turtles.py:65-90 | Interpreting `a + b` is interpreting `a` and then, unless that failed, `b` from the state where `a` ended. |
| `Turtle.ExecCounts` | l-turtles.py:66-84 | A successful run adds one segment per `F G M N` step and leaves earlier segments alone. Exactly the `F G` segments are visible. The stack depth changes by pushes minus pops. |
| `Turtle.ExecTight` | l-turtles.py:55-74 | The bounds stay tight. A box that encloses the starting bounds and holds the end of every segment the run drew also encloses the final bounds. |
| `Turtle.RunBoundsTight` | l-turtles.py:48-74 | From the start, any box holding the origin and the end of every segment encloses the final bounds. Together with `ExecTracked`, the final bounds are exactly the bounding box of the origin and the drawing. |
| `Turtle.ExecFaultAt` | l-turtles.py:65-83 | A failed run stopped at some `]` that found the stack empty. The fault holds exactly the state reached just before that `]`, with every segment drawn up to there. |
| `Turtle.ExecSucceedsIff` | l-turtles.py:76-84 | A run succeeds if and only if no prefix pops more frames than the stack holds at that point. |
| `Turtle.ExecKeepsStack` | l-turtles.py:76-84 | A run that never closes more than it opened leaves the frames below its starting depth untouched. |
| `Turtle.BracketRoundTrip` | l-turtles.py:76-84 | `[`, a properly nested run, then `]` restores exactly the saved position and heading, and the stack. The `]` adds no segment and no bounds. |
| `Turtle.BalancedEndsEmpty` | l-turtles.py:76-84 | From the start, a properly nested instruction string runs to completion with an empty stack. |
| `Turtle.HeadingWithoutBrackets` | l-turtles.py:86-90 | Without brackets the final heading is the start heading turned by `angle` once per `+` and back once per `-`. |
| `Turtle.HeadingNetTurns` | l-turtles.py:86-90 | Without brackets the final heading is the start heading plus `angle` times (number of `+` minus number of `-`). |
| `Turtle.RepeatIsProduct` | l-turtles.py:86-90 | The net turn of `k` left turns by `angle` is `angle * k`. |
| `Turtle.NoStepsNoPicture` | l-turtles.py:65-90 | A run with no `F G M N` leaves the bounds and the drawn segments unchanged. |
| `Turtle.BoundsMonotone` | l-turtles.py:55-74 | The bounds after any prefix of a successful run are enclosed by the bounds after the whole run. |
| `Turtle.Interpret` | l-turtles.py:47-90 | The loop of `run_turtle` returns exactly the fold `Exec` from the origin with the start heading. It stops at the first `]` that finds the stack empty. |
| `Turtle.BranchScenario` | l-turtles.py:76-90 | `F[+F]-F` at 90 degrees from heading 0 draws 3 segments and ends with an empty stack facing -90. |
| `Turtle.LonePopScenario` | l-turtles.py:80-83 | A lone `]` fails at once with the start state, so nothing has been drawn. |
| `Pipeline.DrawingFitsViewport` | l-turtles.py:93-107 | The squared viewport of a tracked run contains the origin and both ends of every segment. |
| `Pipeline.RunTurtle` | l-turtles.py:47-107 | Reports the expander's error exactly when the alphabet check fails. Given a valid alphabet, it succeeds exactly when the expanded string never pops an empty stack. The drawing surface's failure on a 0-by-0 viewport is not modelled; see "Left out". On success: the instructions are the expansion, the final state is the interpreter's run of them from `Start(startdir)`, and the viewport is `SquareViewport` of its bounds. On a pop error, the fault is the one that run raises. It holds the state at the first `]` that found the stack empty, with one segment per `F G M N` before it. The segment counts match the `F G`/`M N` counts, and a balanced string ends with an empty stack. The final bounds are enclosed by every box that holds the origin and every segment end. The viewport is square and contains every segment. |

## Left out

- The `turtle` module: window setup, pen colour and size, tracer,
  `setworldcoordinates`, `update`, `exitonclick` (l-turtles.py:1, 37-44,
  107-109). This is rendering and event-loop I/O. The model returns the
  segments and the viewport instead.
- The `print` calls (l-turtles.py:53, 106): console output only.
- Trigonometric forward motion and floating point. `terry.forward` is the
  abstract `advance` parameter. Coordinates, headings, `min`/`max` and the
  halving in the squaring step are exact `real` arithmetic, so rounding is
  not modelled.
- Pipeline.RunTurtle: the zero-span viewport is not an error. When every
  position the turtle visits is the origin (for example, an instruction string with no `F G M N`, such as
  `""` or `"+-"`), the bounds stay at the origin and the square viewport
  is 0 by 0. `turtle.setworldcoordinates` at l-turtles.py:107 divides by
  the viewport's span and raises `ZeroDivisionError`. The model returns
  `Success` with that 0-by-0 viewport, because the failure is inside the
  drawing library, which is not part of this model.
- Heading normalisation: `turtle.heading()` reports the heading modulo 360
  when it is saved on `[` (l-turtles.py:78). The model saves and reports
  the unreduced heading. After `F[+F]-F` at 90 degrees, for example, the
  model's heading is -90 where the library reports 270. `advance` is not
  assumed to be 360-periodic in the heading. That the two headings give
  the same direction is therefore a reading of the model, not something it
  proves.
- The two parallel lists `positions` and `angles` are one stack of
  (position, heading) frames. They are always pushed and popped together.
- Rule keys are single characters. A longer key could never match a symbol
  of the instruction string, but it would still be checked against the
  alphabet.
- The alphabet is a sequence of characters. `key in V` on a tuple and on a
  one-string alphabet such as `('F')` agree for one-character keys.
- Python's `assert` is dropped under `python -O`. The model always performs
  the alphabet check.
- The preset functions and the `koch_burst(4)` call (l-turtles.py:111-148)
  are configuration data plus a side-effecting entry point. Only the right
  Koch rule is used, as a concrete example.

=== FILE: lsystem.dfy ===
/**
 The grammar expander: a context-free, parallel string rewrite of an axiom,
 repeated for a fixed number of generations.
 */
module LSystem {
  import opened Wrappers

  type Symbol = char
  type Word = seq<Symbol>
  /** Production rules: each key symbol is replaced by its word. */
  type Rules = map<Symbol, Word>

  /** The grammar names a rule for a symbol outside its declared alphabet. */
  datatype ExpandError = ConfigurationError

  /** What one symbol becomes in one generation: its rule's word, or itself. */
  function Image(P: Rules, x: Symbol): Word {
    if x in P then P[x] else [x]
  }

  /** No symbol of `s` has a rule, so rewriting leaves `s` alone. */
  predicate Inert(P: Rules, s: Word) {
    forall i :: 0 <= i < |s| ==> s[i] !in P
  }

  /** Every replacement word is non-empty: no rule erases its symbol. */
  predicate NonErasing(P: Rules) {
    forall x :: x in P ==> |P[x]| > 0
  }

  /** The alphabet check: skipped when the alphabet is absent or empty,
      otherwise every rule key must be one of its symbols. */
  predicate AlphabetOk(V: Option<Word>, P: Rules) {
    V.None? || |V.value| == 0 || forall k :: k in P ==> k in V.value
  }

  /** One generation: every symbol is replaced simultaneously and the
      images are concatenated in order. */
  function Rewrite(P: Rules, s: Word): (r: Word)
    ensures P == map[] ==> r == s
  {
    if s == [] then [] else Image(P, s[0]) + Rewrite(P, s[1..])
  }

  /** `n` generations starting from the axiom `w`. */
  function Iterate(P: Rules, w: Word, n: nat): (r: Word)
    ensures P == map[] ==> r == w
  {
    if n == 0 then w else Rewrite(P, Iterate(P, w, n - 1))
  }

  /** The number of passes `range(n)` makes: none when `n` is not positive. */
  function Generations(n: int): nat {
    if n < 0 then 0 else n
  }

  /** A word without rule symbols is a fixed point of rewriting. */
  lemma {:induction false} RewriteInert(P: Rules, s: Word)
    requires Inert(P, s)
    ensures Rewrite(P, s) == s
  {
    if s != [] {
      RewriteInert(P, s[1..]);
    }
  }

  /** Non-erasing rules never make a word shorter in one generation. */
  lemma {:induction false} RewriteLength(P: Rules, s: Word)
    requires NonErasing(P)
    ensures |Rewrite(P, s)| >= |s|
  {
    if s != [] {
      RewriteLength(P, s[1..]);
    }
  }

  /** A word without rule symbols stays the same in every generation. */
  lemma {:induction false} IterateInert(P: Rules, w: Word, n: nat)
    requires Inert(P, w)
    ensures Iterate(P, w, n) == w
  {
    if n > 0 {
      IterateInert(P, w, n - 1);
      RewriteInert(P, w);
    }
  }

  /** Rewriting distributes over concatenation: the images of one part
      are never rewritten again because of what stands next to them. */
  lemma {:induction false} RewriteConcat(P: Rules, a: Word, b: Word)
    ensures Rewrite(P, a + b) == Rewrite(P, a) + Rewrite(P, b)
  {
    if a == [] {
      assert a + b == b;
    } else {
      assert (a + b)[1..] == a[1..] + b;
      RewriteConcat(P, a[1..], b);
    }
  }

  /** A one-symbol word becomes exactly its image, even when that image
      contains symbols that have rules of their own. */
  lemma RewriteSymbol(P: Rules, x: Symbol)
    ensures Rewrite(P, [x]) == Image(P, x)
  {
  }

  /** Rewriting a word is rewriting its prefix and then appending the image
      of its next symbol; this is the left-to-right order of the loop. */
  lemma RewriteSnoc(P: Rules, s: Word, x: Symbol)
    ensures Rewrite(P, s + [x]) == Rewrite(P, s) + Image(P, x)
  {
    RewriteConcat(P, s, [x]);
    RewriteSymbol(P, x);
  }

  /** The first generation may also be taken first: n + 1 generations of `w`
      are n generations of the rewritten axiom. */
  lemma {:induction false} IterateFirst(P: Rules, w: Word, n: nat)
    ensures Iterate(P, w, n + 1) == Iterate(P, Rewrite(P, w), n)
  {
    if n > 0 {
      IterateFirst(P, w, n - 1);
    }
  }

  /** Generations compose: n generations of the result of m generations
      are m + n generations. */
  lemma {:induction false} IterateAdd(P: Rules, w: Word, m: nat, n: nat)
    ensures Iterate(P, Iterate(P, w, m), n) == Iterate(P, w, m + n)
  {
    if n > 0 {
      IterateAdd(P, w, m, n - 1);
    }
  }

  /** Expansion distributes over concatenation of axioms, in every generation. */
  lemma {:induction false} IterateConcat(P: Rules, a: Word, b: Word, n: nat)
    ensures Iterate(P, a + b, n) == Iterate(P, a, n) + Iterate(P, b, n)
  {
    if n > 0 {
      IterateConcat(P, a, b, n - 1);
      RewriteConcat(P, Iterate(P, a, n - 1), Iterate(P, b, n - 1));
    }
  }

  /** When no rule erases its symbol, the word never gets shorter from one
      generation to any later one. */
  lemma {:induction false} IterateLengthMonotone(P: Rules, w: Word, m: nat, n: nat)
    requires NonErasing(P)
    requires m <= n
    ensures |Iterate(P, w, m)| <= |Iterate(P, w, n)|
  {
    if m < n {
      IterateLengthMonotone(P, w, m, n - 1);
      RewriteLength(P, Iterate(P, w, n - 1));
    }
  }

  /** One generation, computed left to right as `l_system`'s list
      comprehension and join do. */
  method RewritePass(P: Rules, s: Word) returns (out: Word)
    ensures out == Rewrite(P, s)
  {
    out := [];
    var i := 0;
    while i < |s|
      invariant 0 <= i <= |s|
      invariant out == Rewrite(P, s[..i])
    {
      RewriteSnoc(P, s[..i], s[i]);
      assert s[..i + 1] == s[..i] + [s[i]];
      out := out + Image(P, s[i]);
      i := i + 1;
    }
    assert s[..|s|] == s;
  }

  /** The alphabet check: nothing to check when the alphabet is absent or
      empty; otherwise the rule keys are visited one at a time and the first
      key outside the alphabet fails the check. */
  method CheckAlphabet(V: Option<Word>, P: Rules) returns (ok: bool)
    ensures ok <==> AlphabetOk(V, P)
  {
    if V.None? || |V.value| == 0 {
      return true;
    }
    var unseen := P.Keys;
    while unseen != {}
      invariant unseen <= P.Keys
      invariant forall k :: k in P && k !in unseen ==> k in V.value
      decreases |unseen|
    {
      var k :| k in unseen;
      if k !in V.value {
        return false;
      }
      unseen := unseen - {k};
    }
    return true;
  }

  /** The expander: the alphabet check first, then `n` passes (none when
      `n` is not positive). */
  method Expand(V: Option<Word>, w: Word, P: Rules, n: int) returns (r: Result<Word, ExpandError>)
    ensures r.Failure? <==> !AlphabetOk(V, P)
    ensures r.Success? ==> r.value == Iterate(P, w, Generations(n))
    ensures r.Success? && n <= 0 ==> r.value == w
  {
    var ok := CheckAlphabet(V, P);
    if !ok {
      return Failure(ConfigurationError);
    }
    var current := w;
    var i := 0;
    while i < n
      invariant i <= Generations(n)
      invariant 0 <= i
      invariant current == Iterate(P, w, i)
    {
      current := RewritePass(P, current);
      i := i + 1;
    }
    return Success(current);
  }

  /** The right Koch curve preset: one generation of `F` under
      `F -> F+F-F-F+F`. */
  lemma RightKochOneGeneration()
    ensures Iterate(map['F' := "F+F-F-F+F"], "F", 1) == "F+F-F-F+F"
  {
  }
}

=== FILE: pipeline.dfy ===
/**
 The whole render call: expand the grammar, interpret the instruction
 string from the origin, then square the final bounds into the viewport
 handed to the drawing surface.
 */
module Pipeline {
  import opened Wrappers
  import opened Viewport
  import LSystem
  import opened Turtle

  /** Which stage raised: the expander's alphabet check or the
      interpreter's pop. */
  datatype RunError =
    | ExpandFailed(cause: LSystem.ExpandError)
    | InterpretFailed(fault: Fault)

  /** What one render produces: the instruction string, the turtle's final
      state (its segments and bounds) and the square viewport. */
  datatype Picture = Picture(instructions: LSystem.Word, final: State, view: Box)

  /** Squaring the bounds of a tracked run keeps the origin and both ends
      of every segment in view. */
  lemma DrawingFitsViewport(t: State)
    requires Tracked(t)
    ensures Inside(Origin, SquareViewport(t.bounds))
    ensures forall i :: 0 <= i < |t.drawn| ==>
              Inside(t.drawn[i].start, SquareViewport(t.bounds)) &&
              Inside(t.drawn[i].end, SquareViewport(t.bounds))
  {
  }

  /** A render from grammar to viewport. */
  method RunTurtle(V: Option<LSystem.Word>, w: LSystem.Word, P: LSystem.Rules, iters: int,
                   angle: real, startdir: real, advance: Advance)
    returns (r: Result<Picture, RunError>)
    ensures r == Failure(ExpandFailed(LSystem.ConfigurationError)) <==> !LSystem.AlphabetOk(V, P)
    ensures LSystem.AlphabetOk(V, P) ==>
              (r.Success? <==> NoUnderflow(0, LSystem.Iterate(P, w, LSystem.Generations(iters))))
    ensures r.Success? ==> r.value.instructions == LSystem.Iterate(P, w, LSystem.Generations(iters))
    ensures r.Success? ==> Exec(Start(startdir), r.value.instructions, angle, advance) == Success(r.value.final)
    ensures r.Success? ==> r.value.view == SquareViewport(r.value.final.bounds)
    ensures r.Failure? && r.error.InterpretFailed? ==>
              Exec(Start(startdir), LSystem.Iterate(P, w, LSystem.Generations(iters)), angle, advance)
                == Failure(r.error.fault)
    ensures r.Failure? && r.error.InterpretFailed? ==>
              var s := LSystem.Iterate(P, w, LSystem.Generations(iters));
              exists i :: 0 <= i < |s| && s[i] == ']'
                && Exec(Start(startdir), s[..i], angle, advance) == Success(r.error.fault.at)
                && r.error.fault.at.stack == []
                && |r.error.fault.at.drawn| == Steps(s[..i])
    ensures r.Success? ==> |r.value.final.drawn| == Steps(r.value.instructions)
    ensures r.Success? ==> VisibleCount(r.value.final.drawn) == Draws(r.value.instructions)
    ensures r.Success? && Balanced(r.value.instructions) ==> r.value.final.stack == []
    ensures r.Success? ==> Width(r.value.view) == Height(r.value.view)
    ensures r.Success? ==> Encloses(r.value.view, r.value.final.bounds)
    ensures r.Success? ==> forall c: Box ::
              Inside(Origin, c) &&
              (forall i :: 0 <= i < |r.value.final.drawn| ==> Inside(r.value.final.drawn[i].end, c))
              ==> Encloses(c, r.value.final.bounds)
    ensures r.Success? ==> forall i :: 0 <= i < |r.value.final.drawn| ==>
              Inside(r.value.final.drawn[i].start, r.value.view) &&
              Inside(r.value.final.drawn[i].end, r.value.view)
  {
    var expanded := LSystem.Expand(V, w, P, iters);
    if expanded.Failure? {
      assert expanded.error == LSystem.ConfigurationError;
      return Failure(ExpandFailed(expanded.error));
    }
    var instructions := expanded.value;
    var run := Interpret(instructions, angle, startdir, advance);
    ExecSucceedsIff(Start(startdir), instructions, angle, advance);
    if run.Failure? {
      ExecFaultAt(Start(startdir), instructions, angle, advance);
      var i :| 0 <= i < |instructions| && instructions[i] == ']'
               && Exec(Start(startdir), instructions[..i], angle, advance).Success?
               && |Exec(Start(startdir), instructions[..i], angle, advance).value.stack| == 0
               && run == Failure(EmptyStack(Exec(Start(startdir), instructions[..i], angle, advance).value));
      ExecCounts(Start(startdir), instructions[..i], angle, advance);
      return Failure(InterpretFailed(run.error));
    }
    var t := run.value;
    ExecCounts(Start(startdir), instructions, angle, advance);
    ExecTracked(Start(startdir), instructions, angle, advance);
    DrawingFitsViewport(t);
    forall c: Box | Inside(Origin, c) && (forall i :: 0 <= i < |t.drawn| ==> Inside(t.drawn[i].end, c))
      ensures Encloses(c, t.bounds)
    {
      RunBoundsTight(startdir, instructions, angle, advance, c);
    }
    r := Success(Picture(instructions, t, SquareViewport(t.bounds)));
  }
}

=== FILE: turtle.dfy ===
/**
 The turtle interpreter: a single left-to-right pass over an instruction
 string that moves a turtle, saves and restores its (position, heading) on
 a stack, records one segment per forward step and widens a bounding box
 after every forward step.
 */
module Turtle {
  import opened Wrappers
  import opened Viewport
  import opened LSystem

  /** Forward motion on the drawing surface: where a turtle at a point,
      facing a heading in degrees, ends up after moving a distance. */
  type Advance = (Point, real, real) -> Point

  /** The length of every forward step. */
  const Dist: real := 1.0

  /** A saved (position, heading) pair. */
  datatype Frame = Frame(pos: Point, heading: real)

  /** One forward step; invisible when the pen was up. */
  datatype Segment = Segment(start: Point, end: Point, visible: bool)

  datatype State = State(
    pos: Point,
    heading: real,
    stack: seq<Frame>,   // the top of the stack is the last element
    bounds: Box,
    drawn: seq<Segment>)

  /** `]` met with nothing saved; `at` is the state at that point, so the
      segments drawn before it are kept. */
  datatype Fault = EmptyStack(at: State)

  /** At the origin, facing `startdir`, nothing saved or drawn, and bounds
      that are the single point at the origin. */
  function Start(startdir: real): (r: State)
    ensures r.heading == startdir
    ensures r.stack == [] && r.drawn == []
    ensures Tracked(r)
    ensures forall b: Box :: Tracked(r.(bounds := b)) ==> Encloses(b, r.bounds)
  {
    State(Origin, startdir, [], OriginBox, [])
  }

  predicate IsDraw(c: Symbol) { c == 'F' || c == 'G' }
  predicate IsMove(c: Symbol) { c == 'M' || c == 'N' }
  predicate IsStep(c: Symbol) { IsDraw(c) || IsMove(c) }
  predicate IsOpcode(c: Symbol) {
    IsStep(c) || c == '[' || c == ']' || c == '+' || c == '-'
  }

  /** The origin, the turtle, every saved position and both ends of every
      segment lie inside the bounds. */
  predicate Tracked(t: State) {
    && Inside(Origin, t.bounds)
    && Inside(t.pos, t.bounds)
    && (forall i :: 0 <= i < |t.stack| ==> Inside(t.stack[i].pos, t.bounds))
    && (forall i :: 0 <= i < |t.drawn| ==> Inside(t.drawn[i].start, t.bounds))
    && (forall i :: 0 <= i < |t.drawn| ==> Inside(t.drawn[i].end, t.bounds))
  }

  /** One forward step of length `Dist` along the heading: the pen state
      decides the segment's visibility, and the bounds are widened to take
      in the new position. */
  function Forward(t: State, visible: bool, advance: Advance): (r: State)
    ensures r.pos == advance(t.pos, t.heading, Dist)
    ensures r.heading == t.heading && r.stack == t.stack
    ensures r.bounds == UpdateBounds(t.bounds, r.pos)
    ensures |r.drawn| == |t.drawn| + 1 && r.drawn[..|t.drawn|] == t.drawn
    ensures r.drawn[|t.drawn|] == Segment(t.pos, r.pos, visible)
  {
    var p := advance(t.pos, t.heading, Dist);
    t.(pos := p, bounds := UpdateBounds(t.bounds, p),
       drawn := t.drawn + [Segment(t.pos, p, visible)])
  }

  /** Interprets one symbol. */
  function Step(t: State, c: Symbol, angle: real, advance: Advance): (r: Result<State, Fault>)
    ensures r.Failure? <==> c == ']' && |t.stack| == 0
    ensures r.Success? ==> Encloses(r.value.bounds, t.bounds)
  {
    if IsDraw(c) then Success(Forward(t, true, advance))
    else if IsMove(c) then Success(Forward(t, false, advance))
    else if c == '[' then Success(t.(stack := t.stack + [Frame(t.pos, t.heading)]))
    else if c == ']' then
      if |t.stack| == 0 then Failure(EmptyStack(t))
      else
        var top := t.stack[|t.stack| - 1];
        Success(t.(pos := top.pos, heading := top.heading, stack := t.stack[..|t.stack| - 1]))
    else if c == '+' then Success(t.(heading := t.heading + angle))
    else if c == '-' then Success(t.(heading := t.heading - angle))
    else Success(t)
  }

  /** What one symbol does: `F G M N` advance the turtle, widen the bounds
      by exactly the new position and add one segment from the old to the
      new position that is visible for `F G` only; `[` saves the turtle on
      top of the stack; `]` on a non-empty stack goes back to the top frame
      and drops it; only moves and `]` change the position; only `[ ]`
      change the stack; only `+ - ]` change the heading; any other symbol
      leaves the state as it is. */
  lemma StepFrame(t: State, c: Symbol, angle: real, advance: Advance)
    ensures var r := Step(t, c, angle, advance);
            && (!IsStep(c) && r.Success? ==> r.value.bounds == t.bounds && r.value.drawn == t.drawn)
            && (!IsStep(c) && c != ']' ==> r.value.pos == t.pos)
            && (c != '[' && c != ']' ==> r.value.stack == t.stack)
            && (c != '+' && c != '-' && c != ']' ==> r.value.heading == t.heading)
            && (!IsOpcode(c) ==> r == Success(t))
            && (IsStep(c) ==> r.value.drawn == t.drawn + [Segment(t.pos, r.value.pos, IsDraw(c))])
            && (IsStep(c) ==> r.value.pos == advance(t.pos, t.heading, Dist)
                              && r.value.bounds == UpdateBounds(t.bounds, r.value.pos))
            && (c == '[' ==> r.value.stack == t.stack + [Frame(t.pos, t.heading)])
            && (c == ']' && |t.stack| > 0 ==>
                  && r.value.pos == t.stack[|t.stack| - 1].pos
                  && r.value.heading == t.stack[|t.stack| - 1].heading
                  && r.value.stack == t.stack[..|t.stack| - 1])
  {
  }

  /** A step keeps everything it has seen inside the bounds. */
  lemma StepTracked(t: State, c: Symbol, angle: real, advance: Advance)
    requires Tracked(t)
    requires Step(t, c, angle, advance).Success?
    ensures Tracked(Step(t, c, angle, advance).value)
  {
  }

  /** Interprets `s` from state `t`: the state after all of `s` but its last
      symbol, then that symbol; the first fault stops the run. */
  function Exec(t: State, s: seq<Symbol>, angle: real, advance: Advance): (r: Result<State, Fault>)
    ensures r.Success? ==> Encloses(r.value.bounds, t.bounds)
  {
    if s == [] then Success(t)
    else match Exec(t, s[..|s| - 1], angle, advance)
      case Failure(e) => Failure(e)
      case Success(u) => Step(u, s[|s| - 1], angle, advance)
  }

  /** A run from a tracked state stays tracked: the origin, the turtle,
      every saved position and both ends of every segment stay inside the
      bounds. */
  lemma {:induction false} ExecTracked(t: State, s: seq<Symbol>, angle: real, advance: Advance)
    requires Tracked(t)
    requires Exec(t, s, angle, advance).Success?
    ensures Tracked(Exec(t, s, angle, advance).value)
  {
    if s != [] {
      var p := s[..|s| - 1];
      ExecTracked(t, p, angle, advance);
      StepTracked(Exec(t, p, angle, advance).value, s[|s| - 1], angle, advance);
    }
  }

  /** Continues an interpretation that has not failed yet. */
  function Then(r: Result<State, Fault>, s: seq<Symbol>, angle: real, advance: Advance): Result<State, Fault> {
    match r
    case Failure(e) => Failure(e)
    case Success(u) => Exec(u, s, angle, advance)
  }

  function Count(s: seq<Symbol>, c: Symbol): nat { multiset(s)[c] }

  /** Pushes minus pops: how much deeper the stack is after `s`. */
  function Net(s: seq<Symbol>): int { Count(s, '[') - Count(s, ']') }

  /** Forward steps of either kind, and the visible ones. */
  function Steps(s: seq<Symbol>): nat { Count(s, 'F') + Count(s, 'G') + Count(s, 'M') + Count(s, 'N') }
  function Draws(s: seq<Symbol>): nat { Count(s, 'F') + Count(s, 'G') }

  /** Left turns minus right turns. */
  function Turns(s: seq<Symbol>): int { Count(s, '+') - Count(s, '-') }

  /** Starting with `depth` saved frames, no prefix of `s` pops more than
      it has. */
  predicate NoUnderflow(depth: nat, s: seq<Symbol>) {
    forall i :: 0 <= i <= |s| ==> depth + Net(s[..i]) >= 0
  }

  /** Properly nested brackets: no prefix closes more than it opened and
      the whole string closes all it opened. */
  predicate Balanced(s: seq<Symbol>) {
    NoUnderflow(0, s) && Net(s) == 0
  }

  function VisibleCount(ds: seq<Segment>): nat {
    if ds == [] then 0
    else VisibleCount(ds[..|ds| - 1]) + (if ds[|ds| - 1].visible then 1 else 0)
  }

  lemma CountSnoc(s: seq<Symbol>, c: Symbol, x: Symbol)
    ensures Count(s + [c], x) == Count(s, x) + (if c == x then 1 else 0)
  {
  }

  lemma ExecSnoc(t: State, s: seq<Symbol>, c: Symbol, angle: real, advance: Advance)
    ensures Exec(t, s + [c], angle, advance) == Then(Exec(t, s, angle, advance), [c], angle, advance)
  {
    assert (s + [c])[..|s|] == s;
    if Exec(t, s, angle, advance).Success? {
      var u := Exec(t, s, angle, advance).value;
      assert [c][..0] == [];
      assert Exec(u, [], angle, advance) == Success(u);
    }
  }

  /** Interpreting a concatenation is interpreting its first part and then,
      if that did not fail, its second part from where the first stopped. */
  lemma {:induction false} ExecConcat(t: State, a: seq<Symbol>, b: seq<Symbol>, angle: real, advance: Advance)
    ensures Exec(t, a + b, angle, advance) == Then(Exec(t, a, angle, advance), b, angle, advance)
  {
    if b == [] {
      assert a + b == a;
    } else {
      var b' := b[..|b| - 1];
      var c := b[|b| - 1];
      assert a + b == (a + b') + [c];
      assert b == b' + [c];
      ExecSnoc(t, a + b', c, angle, advance);
      ExecConcat(t, a, b', angle, advance);
      if Exec(t, a, angle, advance).Success? {
        ExecSnoc(Exec(t, a, angle, advance).value, b', c, angle, advance);
      }
    }
  }

  /** One symbol's share of `ExecCounts`. */
  lemma StepCounts(u: State, c: Symbol, angle: real, advance: Advance)
    requires Step(u, c, angle, advance).Success?
    ensures var v := Step(u, c, angle, advance).value;
            && |v.drawn| == |u.drawn| + (if IsStep(c) then 1 else 0)
            && VisibleCount(v.drawn) == VisibleCount(u.drawn) + (if IsDraw(c) then 1 else 0)
            && v.drawn[..|u.drawn|] == u.drawn
            && |v.stack| == |u.stack| + (if c == '[' then 1 else if c == ']' then -1 else 0)
  {
  }

  /** What a successful run adds up to: one segment per forward step,
      visible exactly for `F` and `G`, earlier segments untouched, and a
      stack deeper by pushes minus pops. */
  lemma {:induction false} ExecCounts(t: State, s: seq<Symbol>, angle: real, advance: Advance)
    requires Exec(t, s, angle, advance).Success?
    ensures |Exec(t, s, angle, advance).value.drawn| == |t.drawn| + Steps(s)
    ensures VisibleCount(Exec(t, s, angle, advance).value.drawn) == VisibleCount(t.drawn) + Draws(s)
    ensures Exec(t, s, angle, advance).value.drawn[..|t.drawn|] == t.drawn
    ensures |Exec(t, s, angle, advance).value.stack| == |t.stack| + Net(s)
  {
    if s != [] {
      var p := s[..|s| - 1];
      var c := s[|s| - 1];
      assert s == p + [c];
      ExecCounts(t, p, angle, advance);
      CountSnoc(p, c, 'F');
      CountSnoc(p, c, 'G');
      CountSnoc(p, c, 'M');
      CountSnoc(p, c, 'N');
      CountSnoc(p, c, '[');
      CountSnoc(p, c, ']');
      var u := Exec(t, p, angle, advance).value;
      StepCounts(u, c, angle, advance);
      var v := Exec(t, s, angle, advance).value;
      assert v == Step(u, c, angle, advance).value;
      assert v.drawn[..|t.drawn|] == u.drawn[..|t.drawn|];
    }
  }

  /** The bounds are tight: any box that encloses the bounds a run started
      with and holds the end of every segment the run drew also encloses
      the bounds the run ends with. */
  lemma {:induction false} ExecTight(t: State, s: seq<Symbol>, angle: real, advance: Advance, c: Box)
    requires Exec(t, s, angle, advance).Success?
    requires Encloses(c, t.bounds)
    requires var ds := Exec(t, s, angle, advance).value.drawn;
             forall i :: |t.drawn| <= i < |ds| ==> Inside(ds[i].end, c)
    ensures Encloses(c, Exec(t, s, angle, advance).value.bounds)
  {
    if s != [] {
      var p := s[..|s| - 1];
      var x := s[|s| - 1];
      var u := Exec(t, p, angle, advance).value;
      var v := Exec(t, s, angle, advance).value;
      assert v == Step(u, x, angle, advance).value;
      ExecCounts(t, p, angle, advance);
      StepCounts(u, x, angle, advance);
      StepFrame(u, x, angle, advance);
      forall i | |t.drawn| <= i < |u.drawn| ensures Inside(u.drawn[i].end, c) {
        assert u.drawn[i] == v.drawn[i];
      }
      ExecTight(t, p, angle, advance, c);
      if IsStep(x) {
        assert v.drawn[|u.drawn|].end == v.pos;
      }
    }
  }

  /** From the start, the final bounds are the bounding box of the origin
      and the drawing: any box holding the origin and the end of every
      segment encloses them. */
  lemma {:induction false} RunBoundsTight(startdir: real, s: seq<Symbol>, angle: real, advance: Advance, c: Box)
    requires Exec(Start(startdir), s, angle, advance).Success?
    requires Inside(Origin, c)
    requires var ds := Exec(Start(startdir), s, angle, advance).value.drawn;
             forall i :: 0 <= i < |ds| ==> Inside(ds[i].end, c)
    ensures Encloses(c, Exec(Start(startdir), s, angle, advance).value.bounds)
  {
    ExecTight(Start(startdir), s, angle, advance, c);
  }

  /** A run succeeds exactly when no prefix pops more frames than the
      stack holds at that point. */
  lemma {:induction false} ExecSucceedsIff(t: State, s: seq<Symbol>, angle: real, advance: Advance)
    ensures Exec(t, s, angle, advance).Success? <==> NoUnderflow(|t.stack|, s)
  {
    if Exec(t, s, angle, advance).Success? {
      forall i | 0 <= i <= |s| ensures |t.stack| + Net(s[..i]) >= 0 {
        assert s == s[..i] + s[i..];
        ExecConcat(t, s[..i], s[i..], angle, advance);
        ExecCounts(t, s[..i], angle, advance);
      }
    }
    if NoUnderflow(|t.stack|, s) {
      NoUnderflowPrefixSucceeds(t, s, angle, advance);
    }
  }

  /** A failed run stopped at a `]` that found the stack empty: the fault
      holds the state the run had reached just before that `]`, with every
      segment drawn up to there. */
  lemma {:induction false} ExecFaultAt(t: State, s: seq<Symbol>, angle: real, advance: Advance)
    requires Exec(t, s, angle, advance).Failure?
    ensures exists i :: 0 <= i < |s| && s[i] == ']'
              && Exec(t, s[..i], angle, advance).Success?
              && |Exec(t, s[..i], angle, advance).value.stack| == 0
              && Exec(t, s, angle, advance) == Failure(EmptyStack(Exec(t, s[..i], angle, advance).value))
  {
    var p := s[..|s| - 1];
    if Exec(t, p, angle, advance).Failure? {
      ExecFaultAt(t, p, angle, advance);
      var i :| 0 <= i < |p| && p[i] == ']'
               && Exec(t, p[..i], angle, advance).Success?
               && |Exec(t, p[..i], angle, advance).value.stack| == 0
               && Exec(t, p, angle, advance) == Failure(EmptyStack(Exec(t, p[..i], angle, advance).value));
      assert p[..i] == s[..i];
    } else {
      assert s[..|s| - 1] == p;
    }
  }

  lemma {:induction false} NoUnderflowPrefixSucceeds(t: State, s: seq<Symbol>, angle: real, advance: Advance)
    requires NoUnderflow(|t.stack|, s)
    ensures Exec(t, s, angle, advance).Success?
  {
    if s != [] {
      var p := s[..|s| - 1];
      var c := s[|s| - 1];
      assert s == p + [c];
      forall i | 0 <= i <= |p| ensures |t.stack| + Net(p[..i]) >= 0 {
        assert p[..i] == s[..i];
      }
      NoUnderflowPrefixSucceeds(t, p, angle, advance);
      ExecCounts(t, p, angle, advance);
      CountSnoc(p, c, '[');
      CountSnoc(p, c, ']');
      assert s[..|s|] == s;
    }
  }

  /** A run that never pops below its starting depth leaves the frames it
      started with where they were. */
  lemma {:induction false} ExecKeepsStack(t: State, s: seq<Symbol>, angle: real, advance: Advance)
    requires NoUnderflow(0, s)
    ensures Exec(t, s, angle, advance).Success?
    ensures |t.stack| <= |Exec(t, s, angle, advance).value.stack|
    ensures Exec(t, s, angle, advance).value.stack[..|t.stack|] == t.stack
  {
    ExecSucceedsIff(t, s, angle, advance);
    ExecCounts(t, s, angle, advance);
    assert s[..|s|] == s;
    if s != [] {
      var p := s[..|s| - 1];
      var c := s[|s| - 1];
      assert s == p + [c];
      forall i | 0 <= i <= |p| ensures Net(p[..i]) >= 0 {
        assert p[..i] == s[..i];
      }
      ExecKeepsStack(t, p, angle, advance);
    }
  }

  /** `[`, a properly nested run, then `]`: the turtle is back exactly at
      the saved position and heading, the stack is as before, and `]` adds
      no connecting segment. */
  lemma BracketRoundTrip(t: State, s: seq<Symbol>, angle: real, advance: Advance)
    requires Balanced(s)
    ensures var pushed := t.(stack := t.stack + [Frame(t.pos, t.heading)]);
            var r := Exec(t, ['['] + s + [']'], angle, advance);
            && Exec(pushed, s, angle, advance).Success?
            && r.Success?
            && r.value.pos == t.pos
            && r.value.heading == t.heading
            && r.value.stack == t.stack
            && r.value.drawn == Exec(pushed, s, angle, advance).value.drawn
            && r.value.bounds == Exec(pushed, s, angle, advance).value.bounds
  {
    var pushed := t.(stack := t.stack + [Frame(t.pos, t.heading)]);
    ExecSnoc(t, [], '[', angle, advance);
    assert [] + ['['] == ['['];
    assert Exec(t, ['['], angle, advance) == Success(pushed);
    ExecConcat(t, ['['], s, angle, advance);
    ExecKeepsStack(pushed, s, angle, advance);
    ExecCounts(pushed, s, angle, advance);
    var after := Exec(pushed, s, angle, advance).value;
    assert after.stack == pushed.stack;
    ExecSnoc(t, ['['] + s, ']', angle, advance);
    ExecSnoc(after, [], ']', angle, advance);
    assert [] + [']'] == [']'];
  }

  /** From the start, properly nested brackets leave the stack empty. */
  lemma BalancedEndsEmpty(startdir: real, s: seq<Symbol>, angle: real, advance: Advance)
    requires Balanced(s)
    ensures Exec(Start(startdir), s, angle, advance).Success?
    ensures Exec(Start(startdir), s, angle, advance).value.stack == []
  {
    ExecSucceedsIff(Start(startdir), s, angle, advance);
    ExecCounts(Start(startdir), s, angle, advance);
  }

  /** `angle` added up `k` times (subtracted when `k` is negative): the
      total turn of `k` net left turns. */
  function Repeat(angle: real, k: int): real
    decreases if k < 0 then -k else k
  {
    if k == 0 then 0.0
    else if k > 0 then Repeat(angle, k - 1) + angle
    else Repeat(angle, k + 1) - angle
  }

  lemma RepeatSucc(angle: real, k: int)
    ensures Repeat(angle, k + 1) == Repeat(angle, k) + angle
  {
  }

  lemma {:induction false} RepeatIsProduct(angle: real, k: int)
    ensures Repeat(angle, k) == angle * k as real
    decreases if k < 0 then -k else k
  {
    if k > 0 {
      RepeatIsProduct(angle, k - 1);
    } else if k < 0 {
      RepeatIsProduct(angle, k + 1);
    }
  }

  /** Without brackets the heading is the start heading turned by `angle`
      once per `+` and back once per `-`; `RepeatIsProduct` turns the
      repeated turn into `angle` times the net number of left turns. */
  lemma {:induction false} HeadingWithoutBrackets(t: State, s: seq<Symbol>, angle: real, advance: Advance)
    requires Count(s, '[') == 0 && Count(s, ']') == 0
    ensures Exec(t, s, angle, advance).Success?
    ensures Exec(t, s, angle, advance).value.heading == t.heading + Repeat(angle, Turns(s))
  {
    if s != [] {
      var p := s[..|s| - 1];
      var c := s[|s| - 1];
      assert s == p + [c];
      CountSnoc(p, c, '[');
      CountSnoc(p, c, ']');
      CountSnoc(p, c, '+');
      CountSnoc(p, c, '-');
      HeadingWithoutBrackets(t, p, angle, advance);
      if c == '+' {
        RepeatSucc(angle, Turns(p));
      } else if c == '-' {
        RepeatSucc(angle, Turns(s));
      }
    }
  }

  /** Without brackets the heading is the start heading plus `angle` times
      the number of `+` minus the number of `-`. */
  lemma {:induction false} HeadingNetTurns(t: State, s: seq<Symbol>, angle: real, advance: Advance)
    requires Count(s, '[') == 0 && Count(s, ']') == 0
    ensures Exec(t, s, angle, advance).Success?
    ensures Exec(t, s, angle, advance).value.heading == t.heading + angle * (Turns(s) as real)
  {
    HeadingAfter(t, s, angle, advance, Turns(s));
  }

  /** `HeadingNetTurns` with the net number of turns named `k`. */
  lemma HeadingAfter(t: State, s: seq<Symbol>, angle: real, advance: Advance, k: int)
    requires Count(s, '[') == 0 && Count(s, ']') == 0
    requires k == Turns(s)
    ensures Exec(t, s, angle, advance).Success?
    ensures Exec(t, s, angle, advance).value.heading == t.heading + angle * (k as real)
  {
    HeadingWithoutBrackets(t, s, angle, advance);
    TurnedBy(Exec(t, s, angle, advance).value.heading, t.heading, angle, k);
  }

  lemma TurnedBy(h: real, start: real, angle: real, k: int)
    requires h == start + Repeat(angle, k)
    ensures h == start + angle * (k as real)
  {
    RepeatIsProduct(angle, k);
  }

  /** Symbols other than `F`, `G`, `M` and `N` neither draw nor widen the
      bounds. */
  lemma {:induction false} NoStepsNoPicture(t: State, s: seq<Symbol>, angle: real, advance: Advance)
    requires Steps(s) == 0
    requires Exec(t, s, angle, advance).Success?
    ensures Exec(t, s, angle, advance).value.bounds == t.bounds
    ensures Exec(t, s, angle, advance).value.drawn == t.drawn
  {
    if s != [] {
      var p := s[..|s| - 1];
      var c := s[|s| - 1];
      assert s == p + [c];
      CountSnoc(p, c, 'F');
      CountSnoc(p, c, 'G');
      CountSnoc(p, c, 'M');
      CountSnoc(p, c, 'N');
      NoStepsNoPicture(t, p, angle, advance);
    }
  }

  /** The bounds never shrink: those after any prefix of a successful run
      are enclosed by those after the whole run. */
  lemma BoundsMonotone(t: State, s: seq<Symbol>, i: nat, angle: real, advance: Advance)
    requires i <= |s|
    requires Exec(t, s, angle, advance).Success?
    ensures Exec(t, s[..i], angle, advance).Success?
    ensures Encloses(Exec(t, s, angle, advance).value.bounds, Exec(t, s[..i], angle, advance).value.bounds)
  {
    assert s == s[..i] + s[i..];
    ExecConcat(t, s[..i], s[i..], angle, advance);
  }

  /** The loop of `run_turtle`: one symbol at a time, stopping at the first
      `]` that finds the stack empty. */
  method Interpret(s: seq<Symbol>, angle: real, startdir: real, advance: Advance)
    returns (r: Result<State, Fault>)
    ensures r == Exec(Start(startdir), s, angle, advance)
  {
    var t := Start(startdir);
    var i := 0;
    while i < |s|
      invariant 0 <= i <= |s|
      invariant Exec(Start(startdir), s[..i], angle, advance) == Success(t)
    {
      var c := s[i];
      assert s[..i + 1][..i] == s[..i];
      if c == 'F' || c == 'G' {
        t := Forward(t, true, advance);
      } else if c == 'M' || c == 'N' {
        t := Forward(t, false, advance);
      } else if c == '[' {
        t := t.(stack := t.stack + [Frame(t.pos, t.heading)]);
      } else if c == ']' {
        if |t.stack| == 0 {
          r := Failure(EmptyStack(t));
          ExecConcat(Start(startdir), s[..i + 1], s[i + 1..], angle, advance);
          assert s[..i + 1] + s[i + 1..] == s;
          return;
        }
        var top := t.stack[|t.stack| - 1];
        t := t.(pos := top.pos, heading := top.heading, stack := t.stack[..|t.stack| - 1]);
      } else if c == '+' {
        t := t.(heading := t.heading + angle);
      } else if c == '-' {
        t := t.(heading := t.heading - angle);
      }
      i := i + 1;
    }
    assert s[..i] == s;
    r := Success(t);
  }

  /** A branch: `F[+F]-F` at 90 degrees from heading 0 draws three
      segments, the turn inside the brackets is discarded, and the run
      ends with nothing saved and the heading at -90. */
  lemma BranchScenario(advance: Advance)
    ensures var r := Exec(Start(0.0), "F[+F]-F", 90.0, advance);
            && r.Success?
            && |r.value.drawn| == 3
            && r.value.stack == []
            && r.value.heading == -90.0
  {
    var t := Start(0.0);
    BranchThenBack(t, advance);
    var t2 := Exec(t, "F[+F]", 90.0, advance).value;
    TurnThenDraw(t2, 90.0, advance);
    ExecConcat(t, "F[+F]", "-F", 90.0, advance);
    assert "F[+F]" + "-F" == "F[+F]-F";
    ExecCounts(t, "F[+F]-F", 90.0, advance);
  }

  /** After `F[+F]` the turtle faces where it faced after the first `F`. */
  lemma BranchThenBack(t: State, advance: Advance)
    ensures Exec(t, "F[+F]", 90.0, advance).Success?
    ensures Exec(t, "F[+F]", 90.0, advance).value.heading == t.heading
    ensures Exec(t, "F[+F]", 90.0, advance).value.stack == t.stack
  {
    var branch: seq<Symbol> := "+F";
    var bracketed := ['['] + branch + [']'];
    DrawOne(t, 90.0, advance);
    var t1 := Exec(t, "F", 90.0, advance).value;
    forall i | 0 <= i <= |branch| ensures Net(branch[..i]) >= 0 {
      assert Count(branch[..i], ']') == 0;
    }
    assert Net(branch) == 0;
    BracketRoundTrip(t1, branch, 90.0, advance);
    ExecConcat(t, "F", bracketed, 90.0, advance);
    assert "F" + bracketed == "F[+F]";
  }

  lemma DrawOne(t: State, angle: real, advance: Advance)
    ensures Exec(t, "F", angle, advance).Success?
    ensures Exec(t, "F", angle, advance).value.heading == t.heading
    ensures Exec(t, "F", angle, advance).value.stack == t.stack
  {
  }

  lemma TurnThenDraw(t: State, angle: real, advance: Advance)
    ensures Exec(t, "-F", angle, advance).Success?
    ensures Exec(t, "-F", angle, advance).value.heading == t.heading - angle
    ensures Exec(t, "-F", angle, advance).value.stack == t.stack
  {
    ExecSnoc(t, [], '-', angle, advance);
    assert [] + "-" == "-";
    ExecSnoc(t, "-", 'F', angle, advance);
    assert "-" + "F" == "-F";
    var u := t.(heading := t.heading - angle);
    ExecSnoc(u, [], 'F', angle, advance);
    assert [] + "F" == "F";
  }

  /** A lone `]` fails at once, before anything is drawn. */
  lemma LonePopScenario(startdir: real, angle: real, advance: Advance)
    ensures Exec(Start(startdir), "]", angle, advance) == Failure(EmptyStack(Start(startdir)))
  {
  }
}

=== FILE: viewport.dfy ===
/**
 Plane geometry for the interpreter: points, axis-aligned bounding boxes,
 widening a box to take in a point, and squaring the final box into an
 undistorted viewport.
 */
module Viewport {

  datatype Point = Point(x: real, y: real)

  /** A box by its lower-left and upper-right corners (llx, lly, urx, ury). */
  datatype Box = Box(llx: real, lly: real, urx: real, ury: real)

  const Origin := Point(0.0, 0.0)

  /** The box the interpreter starts from: every bound at the origin. */
  const OriginBox := Box(0.0, 0.0, 0.0, 0.0)

  function Min(a: real, b: real): real { if a <= b then a else b }
  function Max(a: real, b: real): real { if a >= b then a else b }

  predicate WellFormed(b: Box) {
    b.llx <= b.urx && b.lly <= b.ury
  }

  predicate Inside(p: Point, b: Box) {
    b.llx <= p.x <= b.urx && b.lly <= p.y <= b.ury
  }

  /** `outer` is at least as wide as `inner` on every side. */
  predicate Encloses(outer: Box, inner: Box) {
    outer.llx <= inner.llx && outer.lly <= inner.lly &&
    inner.urx <= outer.urx && inner.ury <= outer.ury
  }

  function Width(b: Box): real { b.urx - b.llx }
  function Height(b: Box): real { b.ury - b.lly }

  /** Widens `b` so that it takes in `p`: the smallest box that encloses
      both `b` and `p`. */
  function UpdateBounds(b: Box, p: Point): (r: Box)
    ensures Encloses(r, b)
    ensures Inside(p, r)
    ensures forall c: Box :: Encloses(c, b) && Inside(p, c) ==> Encloses(c, r)
    ensures Inside(p, b) ==> r == b
  {
    Box(Min(b.llx, p.x), Min(b.lly, p.y), Max(b.urx, p.x), Max(b.ury, p.y))
  }

  /** The square viewport: the shorter side is stretched symmetrically
      about its centre until it matches the longer one. */
  function SquareViewport(b: Box): (r: Box)
    ensures Width(r) == Height(r)
    ensures Width(r) == Max(Width(b), Height(b))
    ensures WellFormed(b) ==> Encloses(r, b)
    ensures r.llx + r.urx == b.llx + b.urx
    ensures r.lly + r.ury == b.lly + b.ury
    ensures Width(b) > Height(b) ==> r.llx == b.llx && r.urx == b.urx
    ensures Width(b) <= Height(b) ==> r.lly == b.lly && r.ury == b.ury
  {
    var width := b.urx - b.llx;
    var height := b.ury - b.lly;
    if width > height then
      var yCentre := (b.ury + b.lly) / 2.0;
      Box(b.llx, yCentre - width / 2.0, b.urx, yCentre + width / 2.0)
    else
      var xCentre := (b.urx + b.llx) / 2.0;
      Box(xCentre - height / 2.0, b.lly, xCentre + height / 2.0, b.ury)
  }
}

=== FILE: wrappers.dfy ===
/** Failure-carrying datatypes shared by the expander and the interpreter. */
module Wrappers {

  /** An optional value; stands for a Python argument that may be None. */
  datatype Option<+T> = None | Some(value: T)

  /** The outcome of an operation that either produces a value or raises. */
  datatype Result<+R, +E> = Success(value: R) | Failure(error: E)
}
